=== FILE: README.md ===
# HackFlow idea generator: the chat action, modelled in Dafny

HackFlow is a SvelteKit application in which an organiser describes a
hackathon on a form. The form has a name, a problem statement, a duration,
a theme and a team size. The server-side `chat` action validates the form
with a zod schema. When the form is valid, it asks a text generator for a
project idea, cleans the code fence off the reply and parses the rest as
JSON.

This project models that core as pure functions and proves what each part
promises:

- `Schema` models the `chatSchema` validator. It takes the posted form, a
  map from field name to string, and either produces the validated request
  or a report with an entry for each rejected field. The team size is
  converted with `Number` first.
- `Constants` models the closed lists of themes and durations and the
  `allFields` form description. `FormFields` proves that this description
  agrees with the schema.
- `ReplyCleanup` models the clean-up of the reply. The reply is trimmed.
  When it opens with three backticks, one leading fence goes, together with
  an optional lowercase `json` tag and one line break, and so does a fence
  at the very end.
- `Prompt` models the prompt template. It holds the five validated fields,
  each after its label, in a fixed order.
- `ChatAction` models the finished action. `WorkshopChatAction` models the
  version the third workshop starts from, where a valid form still gets a
  placeholder answer.
- Four support modules model the JavaScript behaviour the core relies on:
  - `EcmaString`: `String.prototype.trim`, with the white-space and
    line-terminator sets of sections 12.2 and 12.3 of ECMA-262.
  - `EcmaNumber`: `Number(string)` on decimal integers, and `String(number)`.
  - `TemplateLiteral`: template-literal interpolation.
  - `Outcome`: the `{ success, errors, response }` object the action returns,
    either plainly or through `fail`.

The text generator and `JSON.parse` are parameters of the action model:

- `generate` maps a prompt to the text of the reply, or to `None` when the
  reply has no text.
- `parse` maps a text to its value, or to `None` when parsing throws.

An exception that leaves the finished action is its own outcome, `Thrown`.
It is not folded into a failure.

## Model

| member | source | states |
|---|---|---|
| Constants.ThemeIndexOfEach | workshop_2/start/src/lib/constants.ts:3-24 | helper for `ThemesAreTwentyDistinct`: there are twenty themes, and a function of the first two characters of each gives back its position, so no two can be equal |
| Constants.ThemesAreTwentyDistinct | workshop_2/start/src/lib/constants.ts:3-24 | there are exactly twenty themes and no two are equal |
| Constants.DurationsAreSixDistinct | workshop_2/start/src/lib/constants.ts:26 | there are exactly six durations, all distinct, from "1 hr" to "> 1 month" in that order |
| FormFields.FieldNamesMatchSchema | workshop_2/start/src/lib/constants.ts:28-64 | the form has five fields, and their names in order are the keys the schema validates: title, description, duration, theme, members |
| FormFields.DurationOptionsMatchSchema | workshop_2/start/src/lib/constants.ts:48 | the duration select offers exactly the durations list, and a value is offered exactly when the schema accepts it |
| FormFields.MembersInputMatchesSchema | workshop_2/start/src/lib/constants.ts:55-63 | the team-size field is a required number input with `min` 1; a whole number typed into it passes the schema exactly when it is at least that `min` |
| FormFields.RequiredMarks | workshop_2/start/src/lib/constants.ts:28-64 | name and problem statement are marked required, duration and theme are not, yet the schema rejects all four when they are missing |
| Schema.CheckTitle | workshop_3/start/src/lib/schema.ts:5 | a title passes exactly when it is present and 5 to 200 characters long; it is kept unchanged, and a rejection always carries a message |
| Schema.CheckDescription | workshop_3/start/src/lib/schema.ts:6 | a description passes exactly when it is present and at least 10 characters long; a shorter one is rejected with exactly the message "Required!!", and a missing one with a different message |
| Schema.CheckLabel | workshop_3/start/src/lib/schema.ts:7-8 | an enum value passes exactly when it equals one of the labels character for character |
| Schema.CheckMembers | workshop_3/start/src/lib/schema.ts:9 | the team size passes exactly when it converts with `Number` to a number of at least 1, and the result is that converted number |
| Schema.Accepted | workshop_3/start/src/lib/schema.ts:5-9 | the rule of each field on the posted value alone: present, and the length, label or converted number the schema asks for; `CheckAgrees` and `Validate` tie the checks to it |
| Schema.RunChecks | workshop_3/start/src/lib/schema.ts:4-10 | every field's check runs on its own key, none stopping the others; `CheckAgrees`, `ChecksAgree` and `SameValueSameCheck` state what each check yields |
| Schema.ReportEntries | workshop_3/start/src/lib/schema.ts:4-10 | the error report has an entry exactly for each failed check, holding that check's non-empty messages |
| Schema.ReportEntry | workshop_3/start/src/lib/schema.ts:4-10 | a field has an entry in the compiled report exactly when its check failed, and the entry holds that check's messages |
| Schema.ErrorsEntry | workshop_3/start/src/lib/schema.ts:4-10 | the same holds for the report handed back, which is empty when every check passed |
| Schema.FailedReportNonEmpty | workshop_3/start/src/lib/schema.ts:4-10 | when some check failed, the report handed back is the compiled one and has at least one entry |
| Schema.OnlyFailureReported | workshop_3/start/src/lib/schema.ts:4-10 | when exactly one check failed, the report holds that field's messages and nothing else |
| Schema.CheckAgrees | workshop_3/start/src/lib/schema.ts:4-10 | a field's check passes exactly when the field meets its rule, a failed check always says something, and a posted but short description gets "Required!!" |
| Schema.ChecksAgree | workshop_3/start/src/lib/schema.ts:4-10 | each field's check passes exactly when the field meets its rule as stated independently of the checks (`Accepted`) |
| Schema.Validate | workshop_3/start/src/lib/schema.ts:4-10 | the form validates exactly when every field is acceptable; the result then satisfies every rule and carries the posted strings and the converted team size; otherwise the report has entries for exactly the rejected fields, none empty, and a present but short description is reported as "Required!!" |
| Schema.ValidateReportsErrors | workshop_3/start/src/lib/schema.ts:4-10 | the validator fails exactly when the report has an entry, and then hands back that report |
| Schema.Errors | workshop_3/start/src/lib/schema.ts:4-10 | the report a submission yields, empty when every check passes; `ValidateReportsErrors` and `ErrorEntryIsolated` state its entries |
| Schema.AcceptedFormValidates | workshop_3/start/src/lib/schema.ts:4-10 | a form whose every field passes validates to the record holding the posted strings and the converted team size |
| Schema.ValidateReadsOnlyFields | workshop_3/start/src/lib/schema.ts:4-10 | two forms that agree on the five keys validate alike |
| Schema.UnknownKeyIgnored | workshop_3/start/src/lib/schema.ts:4-10 | adding a key the schema does not know changes nothing |
| Schema.SameValueSameCheck | workshop_3/start/src/lib/schema.ts:4-10 | a field's check gives the same verdict and messages on two forms that post the same value for it |
| Schema.ErrorEntryIsolated | workshop_3/start/src/lib/schema.ts:4-10 | whether a field has a report entry, and what it says, depends on that field's value alone, whatever the other fields are |
| Schema.MissingFieldRejected | workshop_3/start/src/lib/schema.ts:4-10 | a form missing any of the five keys is rejected, with an entry for that key |
| Schema.ExampleFieldsAccepted | workshop_3/start/src/lib/schema.ts:5-9 | a sample form with name, duration "48 hours", theme "HealthTech" and team size "4" meets every rule except possibly the description's |
| Schema.ExampleSubmissionAccepted | workshop_3/start/src/lib/schema.ts:4-10 | that sample form with a long enough description validates to the record of its values, with team size 4 |
| Schema.OnlyShortDescriptionReported | workshop_3/start/src/lib/schema.ts:6 | on a form whose other fields are acceptable, a posted description shorter than 10 characters is the only entry of the report, as "Required!!" |
| Schema.ShortDescriptionReported | workshop_3/start/src/lib/schema.ts:6 | the sample form with a description shorter than 10 characters is rejected with a report holding only the description's "Required!!" |
| Schema.MembersConverted | workshop_3/start/src/lib/schema.ts:9 | a team size of "3" on an otherwise acceptable form is held as the number 3 |
| Schema.EmptyMembersRejected | workshop_3/start/src/lib/schema.ts:9 | an empty team size converts to 0 and is rejected as too small |
| EcmaNumber.DigitChar | completed_project/src/routes/+page.server.ts:41 | the digit character for a value below ten reads back as that value |
| EcmaNumber.DecimalString | completed_project/src/routes/+page.server.ts:41 | `String(n)` of a natural number below 10^21 is a run of digits without leading zeros whose value is `n` |
| EcmaNumber.IntegerString | completed_project/src/routes/+page.server.ts:41 | `String(n)` of an integer is never empty and starts with a minus sign exactly when `n` is negative; `IntegerRoundTrip` reads it back |
| EcmaNumber.StringToInteger | workshop_3/start/src/lib/schema.ts:9 | `Number(s)` on integer text, `NaN` otherwise; `DecimalRoundTrip`, `IntegerRoundTrip`, `StringToIntegerIgnoresPadding` and `BlankIsZero` state its behaviour |
| EcmaNumber.DecimalRoundTrip | workshop_3/start/src/lib/schema.ts:9 | `Number(String(n))` is `n` for every natural number |
| EcmaNumber.IntegerRoundTrip | workshop_3/start/src/lib/schema.ts:9 | `Number(String(n))` is `n` for every integer, negative ones included |
| EcmaNumber.StringToIntegerIgnoresPadding | workshop_3/start/src/lib/schema.ts:9 | white space around a number does not change what `Number` makes of it |
| EcmaNumber.BlankIsZero | workshop_3/start/src/lib/schema.ts:9 | `Number` of an empty or all-white-space string is 0 |
| EcmaString.TrimStart | completed_project/src/routes/+page.server.ts:62 | dropping leading white space leaves a suffix that starts with a non-white-space character, or is empty, and only white space was dropped |
| EcmaString.TrimEnd | completed_project/src/routes/+page.server.ts:62 | dropping trailing white space leaves a prefix that ends with a non-white-space character, or is empty, and only white space was dropped |
| EcmaString.Trim | completed_project/src/routes/+page.server.ts:62 | the trimmed text is no longer than the text and has no white space at either end |
| EcmaString.TrimIsSlice | completed_project/src/routes/+page.server.ts:62 | the trimmed text is one contiguous piece of the text, with only white space cut off before and after it |
| EcmaString.TrimIdentity | completed_project/src/routes/+page.server.ts:62 | trimming leaves a text unchanged exactly when it is empty or neither end is white space |
| EcmaString.TrimIdempotent | completed_project/src/routes/+page.server.ts:62 | trimming twice is trimming once |
| EcmaString.TrimUnpadded | completed_project/src/routes/+page.server.ts:62 | a text that is empty or has no white space at either end is left unchanged by trimming |
| EcmaString.TrimStartSkipsWhiteSpace | completed_project/src/routes/+page.server.ts:62 | white space put in front of a text is dropped by trimming its start |
| EcmaString.TrimStartKeepsTail | completed_project/src/routes/+page.server.ts:62 | white space appended to a text survives trimming its start, unless the text trims to nothing |
| EcmaString.TrimEndSkipsWhiteSpace | completed_project/src/routes/+page.server.ts:62 | white space put after a text is dropped by trimming its end |
| EcmaString.TrimIgnoresPadding | completed_project/src/routes/+page.server.ts:62 | trimming a text padded with white space on both sides gives the trimmed text |
| EcmaString.TrimStartSkipsPrefix | completed_project/src/routes/+page.server.ts:62 | helper for `TrimIgnoresPadding`: white space before a padded text does not change its trimmed start |
| ReplyCleanup.LeadingFenceLength | completed_project/src/routes/+page.server.ts:65 | the leading-fence match never runs past the end of the text |
| ReplyCleanup.StripLeadingFence | completed_project/src/routes/+page.server.ts:65 | what is left after the leading match is a suffix of the text, the whole text when it does not open with three backticks; `LeadingFenceMatch` fixes how much goes |
| ReplyCleanup.LeadingFenceMatch | completed_project/src/routes/+page.server.ts:65 | the leading match is one of the four fence forms; it is empty exactly when the text does not open with three backticks, it takes the `json` tag whenever the tag is there, and it takes a line break that follows the fence or the tag whenever there is one |
| ReplyCleanup.StripTrailingFence | completed_project/src/routes/+page.server.ts:65 | removing the closing fence keeps a prefix; exactly three backticks go when the text ends with them, and nothing goes otherwise |
| ReplyCleanup.CleanTrimmed | completed_project/src/routes/+page.server.ts:62-66 | a reply with no white space at its ends goes straight to the fence removal |
| ReplyCleanup.UnfencedReplyOnlyTrimmed | completed_project/src/routes/+page.server.ts:62-64 | when the trimmed reply does not open with three backticks, the cleaned text is the trimmed reply |
| ReplyCleanup.StripFences | completed_project/src/routes/+page.server.ts:64-66 | the fence removal of the trimmed text; `StripFencesKeepsOneSlice`, `JsonFenceStripped`, `PlainFenceStripped` and `OtherTagKept` state what it keeps |
| ReplyCleanup.CleanReply | completed_project/src/routes/+page.server.ts:62-66 | `jsonText`, the text handed to the parser; `CleanKeepsOneSlice`, `UnfencedReplyOnlyTrimmed`, `JsonFenceRoundTrip` and `PlainFenceRoundTrip` state what it is |
| ReplyCleanup.StripFencesKeepsOneSlice | completed_project/src/routes/+page.server.ts:64-66 | removing the fences keeps one contiguous piece of the text: before it nothing or one leading fence, after it nothing or one closing fence |
| ReplyCleanup.TrailingFenceSlice | completed_project/src/routes/+page.server.ts:65 | helper for `StripFencesKeepsOneSlice`: removing a closing fence from what follows a position keeps a slice, followed by nothing or by the fence |
| ReplyCleanup.CleanKeepsOneSlice | completed_project/src/routes/+page.server.ts:62-66 | the cleaned text is one contiguous piece of the trimmed reply: before it there is nothing or one leading fence (only when the reply opens with one), and after it there is nothing or one closing fence |
| ReplyCleanup.JsonFenceStripped | completed_project/src/routes/+page.server.ts:64-65 | removing the fences from "```json\n" + s + "```" gives back exactly s |
| ReplyCleanup.JsonFenceRoundTrip | completed_project/src/routes/+page.server.ts:62-66 | cleaning "```json\n" + s + "```" gives back exactly s |
| ReplyCleanup.PlainFenceStripped | completed_project/src/routes/+page.server.ts:64-65 | removing the fences from "```\n" + s + "```" gives back exactly s |
| ReplyCleanup.PlainFenceRoundTrip | completed_project/src/routes/+page.server.ts:62-66 | cleaning "```\n" + s + "```" gives back exactly s |
| ReplyCleanup.TrailingFenceAfterLineBreak | completed_project/src/routes/+page.server.ts:65 | text ending in a line break is never touched by the closing-fence removal; only what follows it is |
| ReplyCleanup.OtherTagKept | completed_project/src/routes/+page.server.ts:65 | after a fence whose tag does not begin with lowercase `json`, the tag line is kept whole and only a closing fence is removed |
| ReplyCleanup.JsonPrefixedTagTruncated | completed_project/src/routes/+page.server.ts:65 | a tag that only begins with `json`, such as `jsonc`, loses those four letters and keeps the rest of its line, so the parser sees that rest |
| ReplyCleanup.JsoncFenceStripped | completed_project/src/routes/+page.server.ts:65 | removing the fences from "```jsonc\n{}```" leaves "c\n{}": the `json` part of the tag goes and the `c` stays |
| ReplyCleanup.JsoncTagLeavesC | completed_project/src/routes/+page.server.ts:62-66 | cleaning "```jsonc\n{}```" hands the parser "c\n{}" |
| TemplateLiteral.Interpolate | completed_project/src/routes/+page.server.ts:34-58 | the value of a template literal; `InterpolateSplit`, `InterpolateSlots` and `InterpolateLastPart` state where each segment and substitution stands |
| TemplateLiteral.InterpolateSplit | completed_project/src/routes/+page.server.ts:34-58 | a template's value splits around any of its substitutions into the text before it, the substitution and the rest |
| TemplateLiteral.PrecedingStep | completed_project/src/routes/+page.server.ts:34-58 | the text before one segment extends the text before the previous segment by that segment and its substitution |
| TemplateLiteral.InterpolateSlots | completed_project/src/routes/+page.server.ts:34-58 | every substitution stands verbatim in the value, right after its literal segment, and the substitutions come in order |
| TemplateLiteral.SlotAt | completed_project/src/routes/+page.server.ts:34-58 | helper for `InterpolateSlots`: one substitution stands verbatim right after its literal segment |
| TemplateLiteral.InterpolateLastPart | completed_project/src/routes/+page.server.ts:34-58 | the last literal segment is appended after everything else, which does not depend on it |
| TemplateLiteral.SlotAfterSuffix | completed_project/src/routes/+page.server.ts:34-58 | text that ends the segment before a substitution stands right before that substitution |
| Prompt.Segments | completed_project/src/routes/+page.server.ts:34-41 | the template has six literal segments, and each of the first five ends with the line of its field's label |
| Prompt.PromptValues | completed_project/src/routes/+page.server.ts:37-41 | the five substitutions are the validated name, description, duration and theme, then the team size as a decimal string |
| Prompt.TeamSizeReadsBack | completed_project/src/routes/+page.server.ts:41 | the team size written into the prompt reads back with `Number` as the validated number |
| Prompt.Render | completed_project/src/routes/+page.server.ts:34-58 | the prompt for a validated request; `RenderListsFields`, `RenderLabelsField` and `RenderOrdersFields` state what it holds and in what order |
| Prompt.CompletedPrompt | completed_project/src/routes/+page.server.ts:34-58 | the prompt the completed action sends; `CompletedPromptListsFields` and `PromptsShareFieldLines` state its contents |
| Prompt.WorkshopPrompt | workshop_3/start/src/routes/+page.server.ts:38-61 | the prompt the workshop action builds; `WorkshopPromptListsFields` and `PromptsShareFieldLines` state its contents |
| Prompt.RenderListsFields | completed_project/src/routes/+page.server.ts:37-41 | each field stands verbatim in the prompt |
| Prompt.RenderLabelsField | completed_project/src/routes/+page.server.ts:37-41 | right before each field stands its label, at the start of a line of its own |
| Prompt.RenderOrdersFields | completed_project/src/routes/+page.server.ts:37-41 | each field ends before the label line of the next one begins |
| Prompt.CompletedPromptListsFields | completed_project/src/routes/+page.server.ts:37-41 | the finished action's prompt holds name, description, duration, theme and team size verbatim, each after its label and in that order |
| Prompt.WorkshopPromptListsFields | workshop_3/start/src/routes/+page.server.ts:36-45 | the workshop prompt holds the same five fields verbatim, each after its label and in that order |
| Prompt.PromptsShareFieldLines | workshop_3/start/src/routes/+page.server.ts:38-58 | the two prompts are the same text up to the end of the JSON request, and differ only in how they end |
| Outcome.NoData | completed_project/src/routes/+page.server.ts:61 | the empty answer is not a success and has neither errors nor a response |
| Outcome.ValidationFailure | completed_project/src/routes/+page.server.ts:22-26 | the validation failure is a 400 that is not a success, carries the report and has no response |
| Outcome.ServerFailure | completed_project/src/routes/+page.server.ts:61 | the server failure is a 500 with the empty answer |
| Outcome.Answered | completed_project/src/routes/+page.server.ts:70 | the success answer reports success, carries the parsed value and has no errors |
| ChatAction.Respond | completed_project/src/routes/+page.server.ts:61-70 | a missing or empty reply text, and only such a text, gives the 500 failure; the action succeeds exactly when the text is non-empty and its cleaned form parses, answering with the parsed value; it throws exactly when the cleaned text does not parse |
| ChatAction.Chat | completed_project/src/routes/+page.server.ts:16-70 | an invalid form gives the 400 failure with the validator's report; a valid one gives what the reply to the prompt for the validated record leads to |
| ChatAction.InvalidFormRejected | completed_project/src/routes/+page.server.ts:20-28 | an invalid form gets the 400 failure with a non-empty report, whatever the generator and parser would do |
| ChatAction.SuccessExactly | completed_project/src/routes/+page.server.ts:16-70 | the action succeeds exactly when the form is valid, the reply has text and the cleaned text parses |
| ChatAction.EmptyReplyFails | completed_project/src/routes/+page.server.ts:61 | a valid form whose reply has no text, or empty text, gets the 500 failure |
| ChatAction.FencedReplyParsedAsPayload | completed_project/src/routes/+page.server.ts:62-70 | a reply wrapped in a `json` fence is answered with the parsed payload; when the payload does not parse, the error escapes |
| ChatAction.PaddingIgnored | completed_project/src/routes/+page.server.ts:62 | white space around a non-empty reply does not change the outcome |
| ChatAction.BlankReplyParsedAsEmpty | completed_project/src/routes/+page.server.ts:61-68 | a reply of white space only passes the empty-text check; the parser gets the empty string, and the error escapes |
| WorkshopChatAction.Guard | workshop_3/start/src/routes/+page.server.ts:85-88 | an exception inside the `try` becomes the 500 failure with the empty answer; anything else passes unchanged, and nothing escapes |
| WorkshopChatAction.Placeholder | workshop_3/start/src/routes/+page.server.ts:84 | the body of the `try` block for now: the placeholder answer whatever the prompt; `ValidFormGetsPlaceholder` and `NeverSucceeds` state it |
| WorkshopChatAction.Chat | workshop_3/start/src/routes/+page.server.ts:15-89 | an invalid form gives the 400 failure with the report; a valid one gives the placeholder answer |
| WorkshopChatAction.InvalidFormRejected | workshop_3/start/src/routes/+page.server.ts:23-29 | an invalid form gets the 400 failure with a non-empty report and no response |
| WorkshopChatAction.ValidFormGetsPlaceholder | workshop_3/start/src/routes/+page.server.ts:84 | a valid form gets `{ success: false, errors: null, response: null }` |
| WorkshopChatAction.NeverSucceeds | workshop_3/start/src/routes/+page.server.ts:23-88 | no form makes this action report success, and none makes it throw |

## Left out

- The generator call itself, `systemInstructions`, the model name and the API key are left out. The call goes over the network. The reply's text is the `generate` parameter, and an exception from the call is not modelled.
- `JSON.parse` is the abstract `parse` parameter. The shape of the idea it yields, `aiResponseType`, is not checked. That type declares `teamAllocation` as an array while the prompt asks for an object.
- The exact nested shape of zod's error tree is left out. The report is a map from each rejected field to its messages. Only "Required!!" is a message the source states. The other texts follow zod 4's English messages and are representative.
- EcmaNumber.StringToInteger: models `Number` only on optionally signed decimal integers. It turns fractions, exponents, hexadecimal, `Infinity` and the like into `NaN`, which `Number` would not. It also ignores the loss of precision above 2^53.
- EcmaNumber.DecimalString: writes every natural number as plain digits. JavaScript's `String` switches to exponent form from 10^21 on, so a team size of 10^21 or more reads `1e+21` and the like in the real prompt. Numbers that large are not modelled as doubles.
- A form entry holding a file, and a key posted more than once, are not modelled. The form is a map from key to string.
- Strings are sequences of Unicode characters, not UTF-16 code units. Lengths of texts outside the Basic Multilingual Plane therefore differ from JavaScript's.
- Logging with `console.log` and `console.error` is left out.
- In the workshop action the prompt is built but never used, because the generator call is still commented out. Nothing inside its `try` can throw, so the `catch` branch cannot be reached there. `Guard` models it for any step that may throw.

=== FILE: chat_action.dfy ===
/**
 * The `chat` form action of the finished application: validate the posted
 * form, ask the text generator for an idea, clean its reply and parse it
 * as JSON. The generator and the JSON parser are parameters: `generate`
 * maps a prompt to the reply's text (`None` when the reply has none), and
 * `parse` maps a text to its value (`None` when parsing throws).
 */
module ChatAction {
  import opened Wrappers
  import opened EcmaString
  import opened Schema
  import opened Prompt
  import opened ReplyCleanup
  import opened Outcome

  /**
   * What follows the generator's reply: a missing or empty text is a server
   * failure; otherwise the cleaned text is parsed, and a parse error is not
   * caught, so it escapes the action.
   */
  function Respond<J>(reply: Option<string>, parse: string -> Option<J>): (o: ActionResult<J>)
    ensures (reply.None? || reply == Some("")) <==> o == ServerFailure()
    ensures Succeeded(o) <==> (reply.Some? && reply.value != "" && parse(CleanReply(reply.value)).Some?)
    ensures Succeeded(o) ==> o == Answered(parse(CleanReply(reply.value)).value)
    ensures o.Thrown? <==> (reply.Some? && reply.value != "" && parse(CleanReply(reply.value)).None?)
  {
    if reply.None? || reply.value == "" then ServerFailure()
    else
      match parse(CleanReply(reply.value))
      case None => Thrown
      case Some(v) => Answered(v)
  }

  /** The action: an invalid form is answered with its report, a valid one with the generator's idea. */
  function Chat<J>(sub: Submission, generate: string -> Option<string>, parse: string -> Option<J>): (o: ActionResult<J>)
    ensures Validate(sub).Failure? ==> o == ValidationFailure(Validate(sub).error)
    ensures Validate(sub).Success? ==> o == Respond(generate(CompletedPrompt(Validate(sub).value)), parse)
  {
    match Validate(sub)
    case Failure(errors) => ValidationFailure(errors)
    case Success(r) => Respond(generate(CompletedPrompt(r)), parse)
  }

  /**
   * An invalid form gets `fail(400)` with its report whatever the generator
   * and the parser would do: the generator is never consulted.
   */
  lemma InvalidFormRejected<J>(sub: Submission, generate: string -> Option<string>, parse: string -> Option<J>)
    requires exists f :: !Accepted(sub, f)
    ensures Chat(sub, generate, parse) == ValidationFailure(Errors(sub))
    ensures Chat(sub, generate, parse).data.errors.value != map[]
    ensures forall g: string -> Option<string>, p: string -> Option<J> {:trigger Chat(sub, g, p)} ::
      Chat(sub, g, p) == Chat(sub, generate, parse)
  {
    var f :| !Accepted(sub, f);
    ValidateReportsErrors(sub);
    assert f in Validate(sub).error;
  }

  /** Success exactly when the form is valid, the reply has text and its cleaned text parses. */
  lemma SuccessExactly<J>(sub: Submission, generate: string -> Option<string>, parse: string -> Option<J>)
    ensures Succeeded(Chat(sub, generate, parse)) <==>
      && Validate(sub).Success?
      && var reply := generate(CompletedPrompt(Validate(sub).value));
         reply.Some? && reply.value != "" && parse(CleanReply(reply.value)).Some?
  {
  }

  /** A valid form whose reply has no text gets `fail(500)` with no errors and no response. */
  lemma EmptyReplyFails<J>(sub: Submission, generate: string -> Option<string>, parse: string -> Option<J>)
    requires Validate(sub).Success?
    requires generate(CompletedPrompt(Validate(sub).value)) in {None, Some("")}
    ensures Chat(sub, generate, parse) == ServerFailure()
  {
  }

  /**
   * A reply wrapped in a `json` code fence is parsed as the payload inside
   * the fence: the action answers with the payload's value, or the parse
   * error escapes.
   */
  lemma FencedReplyParsedAsPayload<J>(sub: Submission, generate: string -> Option<string>, parse: string -> Option<J>,
                                      payload: string)
    requires Validate(sub).Success?
    requires generate(CompletedPrompt(Validate(sub).value)) == Some("```json\n" + payload + "```")
    ensures parse(payload).Some? ==> Chat(sub, generate, parse) == Answered(parse(payload).value)
    ensures parse(payload).None? ==> Chat(sub, generate, parse).Thrown?
  {
    JsonFenceRoundTrip(payload);
  }

  /**
   * A reply padded with whitespace gives the same outcome as the bare
   * reply: only the trimmed text counts.
   */
  lemma PaddingIgnored<J>(sub: Submission, generate: string -> Option<string>, parse: string -> Option<J>,
                          w1: string, text: string, w2: string)
    requires AllWhiteSpace(w1) && AllWhiteSpace(w2) && text != []
    requires Validate(sub).Success?
    requires generate(CompletedPrompt(Validate(sub).value)) == Some(w1 + text + w2)
    ensures Chat(sub, generate, parse) == Respond(Some(text), parse)
  {
    TrimIgnoresPadding(w1, text, w2);
  }

  /**
   * A reply of whitespace only has text, so it gets past the empty-text
   * check and the parser is handed the empty string.
   */
  lemma BlankReplyParsedAsEmpty<J>(sub: Submission, generate: string -> Option<string>, parse: string -> Option<J>,
                                   blank: string)
    requires AllWhiteSpace(blank) && blank != []
    requires Validate(sub).Success?
    requires generate(CompletedPrompt(Validate(sub).value)) == Some(blank)
    requires parse("").None?
    ensures Chat(sub, generate, parse).Thrown?
  {
    TrimIgnoresPadding(blank, [], []);
    assert blank + [] + [] == blank;
  }
}

=== FILE: constants.dfy ===
/**
 * The closed label sets and the form description shared by the form and the
 * validator: the hackathon themes, the durations and the five form fields.
 */
module Constants {
  import opened Wrappers

  /** The themes a hackathon may have, in display order. */
  const HackathonThemes: seq<string> := [
    "Artificial Intelligence & Machine Learning",
    "Web Development",
    "Mobile App Development",
    "HealthTech",
    "EdTech",
    "FinTech",
    "Climate Change & Sustainability",
    "Smart Cities",
    "Internet of Things (IoT)",
    "Cybersecurity",
    "Blockchain & Web3",
    "AR / VR / Metaverse",
    "Social Good & Nonprofits",
    "Accessibility & Inclusion",
    "Productivity & Automation",
    "Gaming & Entertainment",
    "Open Innovation",
    "Data Science & Analytics",
    "E-commerce & Retail",
    "Agriculture & FoodTech"
  ]

  /** The durations a hackathon may have, shortest first. */
  const Durations: seq<string> := ["1 hr", "24 hrs", "48 hours", "1 week", "A month", "> 1 month"]

  /** No label occurs twice. */
  predicate Distinct(labels: seq<string>) {
    forall i, j :: 0 <= i < j < |labels| ==> labels[i] != labels[j]
  }

  /** The widget a form field is drawn with. */
  datatype FieldKind = Input | Textarea | Select | SearchSelect

  /** The HTML input type of an `Input` field. */
  datatype InputType = NumberInput | TextInput

  /** One entry of the form description (`label` is `displayLabel` here); the optional attributes may be absent. */
  datatype FormField = FormField(
    displayLabel: string,
    name: string,
    kind: FieldKind,
    placeholder: Option<string>,
    inputType: Option<InputType>,
    options: Option<seq<string>>,
    min: Option<int>,
    max: Option<int>,
    required: Option<bool>)

  /** The fields of the submission form, in the order they are shown. */
  const AllFields: seq<FormField> := [
    FormField("Hackathon Name", "title", Input, Some("e.g. AI for Good Hackathon"),
              None, None, None, None, Some(true)),
    FormField("Problem Statement", "description", Textarea,
              Some("Describe the problem your hackathon aims to solve"),
              None, None, None, None, Some(true)),
    FormField("Duration", "duration", Select, Some("Select duration"),
              None, Some(Durations), None, None, None),
    FormField("Theme", "theme", SearchSelect, None,
              None, None, None, None, None),
    FormField("Team Members", "members", Input, Some("Number of team members"),
              Some(NumberInput), None, Some(1), None, Some(true))
  ]

  /** The position of a theme, read off its first two characters, which tell the themes apart. */
  ghost function ThemeIndex(s: string): int
    requires |s| >= 2
  {
    if s[0] == 'A' && s[1] == 'r' then 0
    else if s[0] == 'W' && s[1] == 'e' then 1
    else if s[0] == 'M' && s[1] == 'o' then 2
    else if s[0] == 'H' && s[1] == 'e' then 3
    else if s[0] == 'E' && s[1] == 'd' then 4
    else if s[0] == 'F' && s[1] == 'i' then 5
    else if s[0] == 'C' && s[1] == 'l' then 6
    else if s[0] == 'S' && s[1] == 'm' then 7
    else if s[0] == 'I' && s[1] == 'n' then 8
    else if s[0] == 'C' && s[1] == 'y' then 9
    else if s[0] == 'B' && s[1] == 'l' then 10
    else if s[0] == 'A' && s[1] == 'R' then 11
    else if s[0] == 'S' && s[1] == 'o' then 12
    else if s[0] == 'A' && s[1] == 'c' then 13
    else if s[0] == 'P' && s[1] == 'r' then 14
    else if s[0] == 'G' && s[1] == 'a' then 15
    else if s[0] == 'O' && s[1] == 'p' then 16
    else if s[0] == 'D' && s[1] == 'a' then 17
    else if s[0] == 'E' && s[1] == '-' then 18
    else if s[0] == 'A' && s[1] == 'g' then 19
    else -1
  }

  /** Each theme's first two characters give back its position. */
  lemma ThemeIndexOfEach()
    ensures |HackathonThemes| == 20
    ensures forall i :: 0 <= i < 20 ==> |HackathonThemes[i]| >= 2 && ThemeIndex(HackathonThemes[i]) == i
  {
    forall i | 0 <= i < 20 ensures |HackathonThemes[i]| >= 2 && ThemeIndex(HackathonThemes[i]) == i {
    }
  }

  /** There are twenty themes and no two are the same. */
  lemma ThemesAreTwentyDistinct()
    ensures |HackathonThemes| == 20 && Distinct(HackathonThemes)
  {
    ThemeIndexOfEach();
    forall i, j | 0 <= i < j < 20 ensures HackathonThemes[i] != HackathonThemes[j] {
      assert ThemeIndex(HackathonThemes[i]) != ThemeIndex(HackathonThemes[j]);
    }
  }

  /** There are six durations, no two the same, from "1 hr" to "> 1 month". */
  lemma DurationsAreSixDistinct()
    ensures |Durations| == 6 && Distinct(Durations)
    ensures Durations[0] == "1 hr" && Durations[5] == "> 1 month"
  {
  }
}

=== FILE: ecma_number.dfy ===
/**
 * The two number conversions the action depends on, restricted to integers:
 * `Number(s)` applied to a form string (the coercion of `z.coerce.number()`),
 * and `String(n)`, which renders the team size inside the prompt.
 */
module EcmaNumber {
  import opened Wrappers
  import opened EcmaString

  predicate IsDigit(c: char) {
    '0' <= c <= '9'
  }

  /** A non-empty run of decimal digits. */
  predicate IsDigits(s: string) {
    |s| > 0 && forall k :: 0 <= k < |s| ==> IsDigit(s[k])
  }

  function DigitChar(d: nat): (c: char)
    requires d < 10
    ensures IsDigit(c) && DigitOf(c) == d
  {
    ('0' as int + d) as char
  }

  function DigitOf(c: char): nat
    requires IsDigit(c)
  {
    c as int - '0' as int
  }

  /** The value of a string of decimal digits, most significant first. */
  function DigitsValue(s: string): nat
    requires forall k :: 0 <= k < |s| ==> IsDigit(s[k])
  {
    if s == [] then 0 else 10 * DigitsValue(s[..|s| - 1]) + DigitOf(s[|s| - 1])
  }

  /**
   * `String(n)` for a natural number below 10^21: its canonical decimal
   * digits, with no leading zero unless the number is zero itself. From
   * 10^21 on JavaScript writes exponent form, which is not modelled.
   */
  function DecimalString(n: nat): (r: string)
    ensures IsDigits(r) && DigitsValue(r) == n
    ensures r[0] == '0' ==> r == "0"
  {
    if n < 10 then [DigitChar(n)]
    else
      var prefix := DecimalString(n / 10);
      var r := prefix + [DigitChar(n % 10)];
      assert r[..|r| - 1] == prefix;
      r
  }

  /** `String(n)` for any integer: a minus sign in front of a negative one. */
  function IntegerString(n: int): (r: string)
    ensures r != [] && (r[0] == '-' <==> n < 0)
  {
    if n < 0 then "-" + DecimalString(-n) else DecimalString(n)
  }

  /**
   * The value of an already trimmed numeric string, restricted to integers:
   * empty is 0, an optionally signed run of decimal digits is its value, and
   * anything else is `NaN` (None).
   */
  function IntegerLiteralValue(t: string): Option<int> {
    if t == [] then Some(0)
    else if t[0] == '+' && IsDigits(t[1..]) then Some(DigitsValue(t[1..]))
    else if t[0] == '-' && IsDigits(t[1..]) then Some(0 - DigitsValue(t[1..]))
    else if IsDigits(t) then Some(DigitsValue(t))
    else None
  }

  /** `Number(s)`, restricted to integers: whitespace around `s` is ignored. */
  function StringToInteger(s: string): Option<int> {
    IntegerLiteralValue(Trim(s))
  }

  /** Round trip: reading back the decimal rendering of a number gives the number. */
  lemma DecimalRoundTrip(n: nat)
    ensures StringToInteger(DecimalString(n)) == Some(n)
  {
    var r := DecimalString(n);
    assert IsDigit(r[0]) && IsDigit(r[|r| - 1]);
    TrimUnpadded(r);
  }

  /** Round trip over all integers, the sign included. */
  lemma IntegerRoundTrip(n: int)
    ensures StringToInteger(IntegerString(n)) == Some(n)
  {
    var r := IntegerString(n);
    if n < 0 {
      var d := DecimalString(-n);
      assert r[1..] == d;
      assert r[0] == '-' && r[|r| - 1] == d[|d| - 1];
      assert IsDigits(r[1..]);
      assert IntegerLiteralValue(r) == Some(n);
      TrimUnpadded(r);
    } else {
      DecimalRoundTrip(n);
    }
  }

  /** `Number` ignores whitespace around its argument. */
  lemma StringToIntegerIgnoresPadding(w1: string, s: string, w2: string)
    requires AllWhiteSpace(w1) && AllWhiteSpace(w2)
    ensures StringToInteger(w1 + s + w2) == StringToInteger(s)
  {
    TrimIgnoresPadding(w1, s, w2);
  }

  /** An empty or all-whitespace string converts to 0. */
  lemma BlankIsZero(s: string)
    requires AllWhiteSpace(s)
    ensures StringToInteger(s) == Some(0)
  {
    var empty: string := [];
    assert s + empty + empty == s;
    TrimIgnoresPadding(s, empty, empty);
  }
}

=== FILE: ecma_string.dfy ===
/**
 * The ECMAScript string operations the server action relies on:
 * `String.prototype.trim`, `startsWith` and `endsWith`.
 * Strings are sequences of characters; the whitespace set is the one of
 * sections 12.2 (White Space) and 12.3 (Line Terminators) of ECMA-262.
 */
module EcmaString {

  /** WhiteSpace (section 12.2 of ECMA-262) or LineTerminator (section 12.3). */
  predicate IsWhiteSpace(c: char) {
    // WhiteSpace: TAB, VT, FF, ZWNBSP and the Unicode "Space_Separator" (Zs) characters
    || c == '\t' || c == '\U{000B}' || c == '\U{000C}' || c == '\U{FEFF}'
    || c == ' ' || c == '\U{00A0}' || c == '\U{1680}'
    || ('\U{2000}' <= c <= '\U{200A}')
    || c == '\U{202F}' || c == '\U{205F}' || c == '\U{3000}'
    // LineTerminator: LF, CR, LINE SEPARATOR, PARAGRAPH SEPARATOR
    || c == '\n' || c == '\r' || c == '\U{2028}' || c == '\U{2029}'
  }

  predicate AllWhiteSpace(s: string) {
    forall k :: 0 <= k < |s| ==> IsWhiteSpace(s[k])
  }

  /** `s.startsWith(p)` */
  predicate StartsWith(s: string, p: string) {
    |p| <= |s| && s[..|p|] == p
  }

  /** `s.endsWith(p)` */
  predicate EndsWith(s: string, p: string) {
    |p| <= |s| && s[|s| - |p|..] == p
  }

  /** Drops the leading whitespace: the longest whitespace prefix goes, nothing else. */
  function TrimStart(s: string): (r: string)
    ensures |r| <= |s| && r == s[|s| - |r|..]
    ensures AllWhiteSpace(s[..|s| - |r|])
    ensures r == [] || !IsWhiteSpace(r[0])
  {
    if s != [] && IsWhiteSpace(s[0]) then TrimStart(s[1..]) else s
  }

  /** Drops the trailing whitespace: the longest whitespace suffix goes, nothing else. */
  function TrimEnd(s: string): (r: string)
    ensures |r| <= |s| && r == s[..|r|]
    ensures AllWhiteSpace(s[|r|..])
    ensures r == [] || !IsWhiteSpace(r[|r| - 1])
  {
    if s != [] && IsWhiteSpace(s[|s| - 1]) then
      var r := TrimEnd(s[..|s| - 1]);
      assert s[|r|..] == s[..|s| - 1][|r|..] + [s[|s| - 1]];
      r
    else s
  }

  /**
   * `s.trim()`: the contiguous part of `s` left once the whitespace on both
   * ends is gone; everything removed is whitespace and the result neither
   * starts nor ends with whitespace.
   */
  function Trim(s: string): (r: string)
    ensures |r| <= |s|
    ensures r == [] || (!IsWhiteSpace(r[0]) && !IsWhiteSpace(r[|r| - 1]))
  {
    TrimEnd(TrimStart(s))
  }

  /** What `trim` keeps is one contiguous piece of the string, with only whitespace around it. */
  lemma TrimIsSlice(s: string)
    ensures exists i, j :: 0 <= i <= j <= |s| && Trim(s) == s[i..j]
                           && AllWhiteSpace(s[..i]) && AllWhiteSpace(s[j..])
  {
    var t := TrimStart(s);
    var r := TrimEnd(t);
    var i := |s| - |t|;
    var j := i + |r|;
    assert t == s[i..];
    assert r == s[i..j];
    assert s[j..] == t[|r|..];
  }

  /** A string is its own trim exactly when it has no whitespace at either end. */
  lemma TrimIdentity(s: string)
    ensures Trim(s) == s <==> (s == [] || (!IsWhiteSpace(s[0]) && !IsWhiteSpace(s[|s| - 1])))
  {
    if s != [] && !IsWhiteSpace(s[0]) && !IsWhiteSpace(s[|s| - 1]) {
      assert TrimStart(s) == s;
      assert TrimEnd(s) == s;
    }
  }

  /** A string without whitespace at its ends is its own trim. */
  lemma TrimUnpadded(s: string)
    requires s == [] || (!IsWhiteSpace(s[0]) && !IsWhiteSpace(s[|s| - 1]))
    ensures Trim(s) == s
  {
    assert TrimStart(s) == s;
    assert TrimEnd(s) == s;
  }

  /** Trimming twice is trimming once. */
  lemma TrimIdempotent(s: string)
    ensures Trim(Trim(s)) == Trim(s)
  {
    TrimIdentity(Trim(s));
  }

  /** Leading whitespace makes no difference to `TrimStart`. */
  lemma {:induction false} TrimStartSkipsWhiteSpace(w: string, x: string)
    requires AllWhiteSpace(w)
    ensures TrimStart(w + x) == TrimStart(x)
  {
    if w != [] {
      assert (w + x)[1..] == w[1..] + x;
      TrimStartSkipsWhiteSpace(w[1..], x);
    } else {
      assert w + x == x;
    }
  }

  /** Trailing whitespace survives `TrimStart` unless nothing else is left. */
  lemma {:induction false} TrimStartKeepsTail(x: string, w: string)
    requires AllWhiteSpace(w)
    ensures TrimStart(x + w) == if TrimStart(x) == [] then [] else TrimStart(x) + w
  {
    if x == [] {
      assert w + [] == w;
      TrimStartSkipsWhiteSpace(w, []);
      assert x + w == w;
    } else if IsWhiteSpace(x[0]) {
      assert (x + w)[1..] == x[1..] + w;
      TrimStartKeepsTail(x[1..], w);
    }
  }

  /** Trailing whitespace makes no difference to `TrimEnd`. */
  lemma {:induction false} TrimEndSkipsWhiteSpace(x: string, w: string)
    requires AllWhiteSpace(w)
    ensures TrimEnd(x + w) == TrimEnd(x)
  {
    if w != [] {
      assert (x + w)[..|x + w| - 1] == x + w[..|w| - 1];
      TrimEndSkipsWhiteSpace(x, w[..|w| - 1]);
    } else {
      assert x + w == x;
    }
  }

  /** Leading whitespace before a padded string makes no difference to `TrimStart`. */
  lemma TrimStartSkipsPrefix(w1: string, s: string, w2: string)
    requires AllWhiteSpace(w1)
    ensures TrimStart(w1 + s + w2) == TrimStart(s + w2)
  {
    assert w1 + s + w2 == w1 + (s + w2);
    TrimStartSkipsWhiteSpace(w1, s + w2);
  }

  /** Whitespace added around a string makes no difference to its trim. */
  lemma TrimIgnoresPadding(w1: string, s: string, w2: string)
    requires AllWhiteSpace(w1) && AllWhiteSpace(w2)
    ensures Trim(w1 + s + w2) == Trim(s)
  {
    var t := TrimStart(s);
    TrimStartSkipsPrefix(w1, s, w2);
    TrimStartKeepsTail(s, w2);
    if t != [] {
      assert Trim(w1 + s + w2) == TrimEnd(t + w2);
      TrimEndSkipsWhiteSpace(t, w2);
    } else {
      assert Trim(w1 + s + w2) == TrimEnd([]);
    }
  }
}

=== FILE: form_fields.dfy ===
/**
 * Agreement between the form description `allFields` and the validator:
 * the form posts exactly the keys the schema reads, offers exactly the
 * durations it accepts and bounds the team size as it does.
 */
module FormFields {
  import opened Wrappers
  import opened EcmaNumber
  import opened Constants
  import opened Schema

  /** The five form fields carry, in order, the keys the schema validates. */
  lemma FieldNamesMatchSchema()
    ensures |AllFields| == |FieldOrder| == 5
    ensures forall k :: 0 <= k < |AllFields| ==> AllFields[k].name == FieldName(FieldOrder[k])
  {
  }

  /** The duration select offers the durations list, and an option is accepted exactly when it is offered. */
  lemma DurationOptionsMatchSchema()
    ensures AllFields[2].name == "duration" && AllFields[2].options == Some(Durations)
    ensures forall s :: s in AllFields[2].options.value <==> CheckLabel(Some(s), Durations).Success?
  {
  }

  /**
   * The team-size field is a required number input whose `min` is the
   * schema's lower bound: a number typed into it passes the schema exactly
   * when it is at least that `min`.
   */
  lemma MembersInputMatchesSchema()
    ensures AllFields[4].name == "members" && AllFields[4].kind == Input
    ensures AllFields[4].inputType == Some(NumberInput) && AllFields[4].required == Some(true)
    ensures AllFields[4].min == Some(MinMembers)
    ensures forall n: nat :: CheckMembers(Some(DecimalString(n))).Success? <==> n >= AllFields[4].min.value
  {
    forall n: nat ensures CheckMembers(Some(DecimalString(n))).Success? <==> n >= AllFields[4].min.value {
      DecimalRoundTrip(n);
    }
  }

  /**
   * The name and problem statement are marked required and the schema
   * rejects them when absent; the duration and theme are not marked
   * required, yet the schema rejects them when absent too.
   */
  lemma RequiredMarks()
    ensures AllFields[0].required == Some(true) && AllFields[1].required == Some(true)
    ensures AllFields[2].required == None && AllFields[3].required == None
    ensures CheckTitle(None).Failure? && CheckDescription(None).Failure?
    ensures CheckLabel(None, Durations).Failure? && CheckLabel(None, HackathonThemes).Failure?
  {
  }
}

=== FILE: outcome.dfy ===
/**
 * What a form action hands back to the page: the data object
 * `{ success, errors, response }`, either returned as is or wrapped by
 * `fail(status, ...)`, or an exception that escapes the action.
 */
module Outcome {
  import opened Wrappers
  import opened Schema

  /** The object the page receives; `None` stands for `null`. */
  datatype ActionData<J> = ActionData(success: bool, errors: Option<FieldErrors>, response: Option<J>)

  /** How an action ends: a plain return, a `fail(status, data)`, or an uncaught exception. */
  datatype ActionResult<J> =
    | Returned(data: ActionData<J>)
    | Failed(status: int, data: ActionData<J>)
    | Thrown

  /** The action reported success to the page. */
  predicate Succeeded<J>(o: ActionResult<J>) {
    o.Returned? && o.data.success
  }

  /** The data with every part empty: `{ success: false, errors: null, response: null }`. */
  function NoData<J>(): (d: ActionData<J>)
    ensures !d.success && d.errors.None? && d.response.None?
  {
    ActionData(false, None, None)
  }

  /** `fail(400, ...)` carrying the validator's report and no response. */
  function ValidationFailure<J>(errors: FieldErrors): (o: ActionResult<J>)
    ensures o.Failed? && o.status == 400 && !Succeeded(o)
    ensures o.data.errors == Some(errors) && o.data.response.None?
  {
    Failed(400, ActionData(false, Some(errors), None))
  }

  /** `fail(500, ...)` with neither errors nor a response. */
  function ServerFailure<J>(): (o: ActionResult<J>)
    ensures o.Failed? && o.status == 500 && !Succeeded(o)
    ensures o.data == NoData()
  {
    Failed(500, NoData())
  }

  /** The successful outcome: the parsed reply as the response, no errors. */
  function Answered<J>(response: J): (o: ActionResult<J>)
    ensures Succeeded(o) && o.data.errors.None? && o.data.response == Some(response)
  {
    Returned(ActionData(true, None, Some(response)))
  }
}

=== FILE: prompt.dfy ===
/**
 * The prompt sent to the text generator: a template literal whose five
 * substitutions are the validated fields, one per line after its label,
 * followed by the description of the JSON object wanted back. The two
 * versions of the chat action use the same lines for the fields and differ
 * only in how the text after the team size ends.
 */
module Prompt {
  import opened Wrappers
  import opened EcmaString
  import opened TemplateLiteral
  import opened EcmaNumber
  import opened Schema

  /** The first line of the template, up to the blank line before the fields. */
  const Preamble: string := "\n\t\t\tYou are an AI Hackathon Idea Generator. Given the following input:\n"

  /**
   * The line each field is written on, up to the field: a line break, the
   * three tabs of indentation and the field's label, in the order the
   * fields are listed.
   */
  const FieldLines: seq<string> := [
    "\n\t\t\t- Hackathon Name: ",
    "\n\t\t\t- Description: ",
    "\n\t\t\t- Duration: ",
    "\n\t\t\t- Theme: ",
    "\n\t\t\t- Team Size: "
  ]

  /** The request for the JSON object, as far as both versions share it. */
  const JsonRequest: string :=
    "\n\n\t\t\tGenerate a **JSON object only**, parseable, with the following keys:\n\n\t\t\t{"
    + "\n\t\t\t\"pitch\": \"A one-liner describing the idea\","
    + "\n\t\t\t\"solution\": \"Brief explanation of the solution\","
    + "\n\t\t\t\"techStack\": [\"list of suggested technologies\"],"
    + "\n\t\t\t\"coreFeatures\": [\"list of main features\"],"
    + "\n\t\t\t\"teamAllocation\": {"
    + "\n\t\t\t\t\"Frontend\": \"number of team members\","
    + "\n\t\t\t\t\"Backend\": \"number of team members\","
    + "\n\t\t\t\t\"Designer\": \"number of team members\","
    + "\n\t\t\t\t\"OtherRoles\": \"if any\""
    + "\n\t\t\t},"

  /** The end of the completed action's prompt: the outer brace is closed. */
  const CompletedTail: string := JsonRequest + "\n\t\t\t}\n\n\t\t\t"

  /** The end of the workshop action's prompt: the outer brace is left open. */
  const WorkshopTail: string := JsonRequest + "\n\t\t\n\t\t\t"

  /** The literal segments of the template, given how it ends. */
  function Segments(tail: string): (parts: seq<string>)
    ensures |parts| == |FieldLines| + 1 && parts[|FieldLines|] == tail
    ensures forall k :: 0 <= k < |FieldLines| ==>
      |FieldLines[k]| <= |parts[k]| && parts[k][|parts[k]| - |FieldLines[k]|..] == FieldLines[k]
  {
    var parts := [Preamble + FieldLines[0], FieldLines[1], FieldLines[2], FieldLines[3], FieldLines[4], tail];
    assert parts[0][|Preamble|..] == FieldLines[0];
    parts
  }

  /**
   * The substituted values, in the order of the template: the four strings
   * as validated and the team size rendered as `String(members)`.
   */
  function PromptValues(r: ValidatedRequest): (values: seq<string>)
    ensures |values| == |FieldLines|
    ensures values[0] == r.title && values[1] == r.description
    ensures values[2] == r.duration && values[3] == r.theme
    ensures values[4] == IntegerString(r.members)
  {
    [r.title, r.description, r.duration, r.theme, IntegerString(r.members)]
  }

  /** The team size in the prompt reads back as the validated number. */
  lemma TeamSizeReadsBack(r: ValidatedRequest)
    ensures StringToInteger(PromptValues(r)[4]) == Some(r.members)
  {
    IntegerRoundTrip(r.members);
  }

  /** The prompt for `r` with the given ending. */
  function Render(r: ValidatedRequest, tail: string): string {
    Interpolate(Segments(tail), PromptValues(r))
  }

  /** The prompt the completed action sends (completed_project). */
  function CompletedPrompt(r: ValidatedRequest): string {
    Render(r, CompletedTail)
  }

  /** The prompt the workshop action builds (workshop_3 start). */
  function WorkshopPrompt(r: ValidatedRequest): string {
    Render(r, WorkshopTail)
  }

  /** Where the `k`-th field stands in the prompt. */
  function FieldOffset(r: ValidatedRequest, tail: string, k: nat): nat
    requires k < |FieldLines|
  {
    SlotOffset(Segments(tail), PromptValues(r), k)
  }

  /** Each field stands verbatim in the prompt. */
  lemma RenderListsFields(r: ValidatedRequest, tail: string)
    ensures forall k :: 0 <= k < |FieldLines| ==>
      OccursAt(Render(r, tail), PromptValues(r)[k], FieldOffset(r, tail, k))
  {
    InterpolateSlots(Segments(tail), PromptValues(r));
  }

  /** Right before each field stands its label, at the start of a line of its own. */
  lemma RenderLabelsField(r: ValidatedRequest, tail: string, k: nat)
    requires k < |FieldLines|
    ensures OccursAt(Render(r, tail), FieldLines[k], FieldOffset(r, tail, k) - |FieldLines[k]|)
  {
    var parts := Segments(tail);
    var values := PromptValues(r);
    var line := FieldLines[k];
    assert |line| <= |parts[k]| && parts[k][|parts[k]| - |line|..] == line;
    SlotAfterSuffix(parts, values, k, line);
    assert Render(r, tail) == Interpolate(parts, values);
    assert FieldOffset(r, tail, k) == SlotOffset(parts, values, k);
  }

  /**
   * The fields come in the order Name, Description, Duration, Theme, Team
   * Size: each one ends before the line of the next begins.
   */
  lemma RenderOrdersFields(r: ValidatedRequest, tail: string, k: nat)
    requires k + 1 < |FieldLines|
    ensures FieldOffset(r, tail, k) + |PromptValues(r)[k]| <= FieldOffset(r, tail, k + 1) - |FieldLines[k + 1]|
  {
    PrecedingStep(Segments(tail), PromptValues(r), k);
  }

  /** The completed action's prompt lists the validated fields, each after its label, in order. */
  lemma CompletedPromptListsFields(r: ValidatedRequest)
    ensures forall k :: 0 <= k < |FieldLines| ==>
      && OccursAt(CompletedPrompt(r), PromptValues(r)[k], FieldOffset(r, CompletedTail, k))
      && OccursAt(CompletedPrompt(r), FieldLines[k],
                  FieldOffset(r, CompletedTail, k) - |FieldLines[k]|)
    ensures forall k :: 0 <= k < |FieldLines| - 1 ==>
      FieldOffset(r, CompletedTail, k) + |PromptValues(r)[k]|
        <= FieldOffset(r, CompletedTail, k + 1) - |FieldLines[k + 1]|
  {
    RenderListsFields(r, CompletedTail);
    forall k | 0 <= k < |FieldLines| {
      RenderLabelsField(r, CompletedTail, k);
    }
    forall k | 0 <= k < |FieldLines| - 1 {
      RenderOrdersFields(r, CompletedTail, k);
    }

  }

  /** The workshop action's prompt lists the validated fields, each after its label, in order. */
  lemma WorkshopPromptListsFields(r: ValidatedRequest)
    ensures forall k :: 0 <= k < |FieldLines| ==>
      && OccursAt(WorkshopPrompt(r), PromptValues(r)[k], FieldOffset(r, WorkshopTail, k))
      && OccursAt(WorkshopPrompt(r), FieldLines[k],
                  FieldOffset(r, WorkshopTail, k) - |FieldLines[k]|)
    ensures forall k :: 0 <= k < |FieldLines| - 1 ==>
      FieldOffset(r, WorkshopTail, k) + |PromptValues(r)[k]|
        <= FieldOffset(r, WorkshopTail, k + 1) - |FieldLines[k + 1]|
  {
    RenderListsFields(r, WorkshopTail);
    forall k | 0 <= k < |FieldLines| {
      RenderLabelsField(r, WorkshopTail, k);
    }
    forall k | 0 <= k < |FieldLines| - 1 {
      RenderOrdersFields(r, WorkshopTail, k);
    }

  }

  /** The two prompts are the same text up to the team size; only what follows it differs. */
  lemma PromptsShareFieldLines(r: ValidatedRequest)
    ensures exists head :: CompletedPrompt(r) == head + CompletedTail && WorkshopPrompt(r) == head + WorkshopTail
  {
    var values := PromptValues(r);
    InterpolateLastPart(Segments(CompletedTail), values);
    InterpolateLastPart(Segments(WorkshopTail), values);
    assert Segments(CompletedTail)[..|values|] == Segments(WorkshopTail)[..|values|];
    var head := Interpolate(Segments(CompletedTail)[..|values|] + [""], values);
    assert CompletedPrompt(r) == head + CompletedTail;
  }
}

=== FILE: reply_cleanup.dfy ===
/**
 * Normalising the text the model replies with before it is parsed: trim it,
 * and when it opens with a code fence drop that fence (with a lowercase
 * `json` tag and one line break, when present) and a fence at the very end.
 */
module ReplyCleanup {
  import opened EcmaString

  const Fence: string := "```"
  const JsonTag: string := "json"

  /** The texts `/^```(json)?\n?/` can match. */
  predicate IsLeadingFence(p: string) {
    p == "```" || p == "```json" || p == "```\n" || p == "```json\n"
  }

  /**
   * The length of the match of `/^```(json)?\n?/` at the start of `t`, 0 when
   * there is none. Both optional parts are greedy: the tag and the line
   * break are taken whenever they are there.
   */
  function LeadingFenceLength(t: string): (n: nat)
    ensures n <= |t|
  {
    if !StartsWith(t, Fence) then 0
    else
      var k := if StartsWith(t[|Fence|..], JsonTag) then |Fence| + |JsonTag| else |Fence|;
      if k < |t| && t[k] == '\n' then k + 1 else k
  }

  /** `t.replace(/^```(json)?\n?/, '')`: what follows the match. */
  function StripLeadingFence(t: string): (r: string)
    ensures |r| <= |t| && r == t[|t| - |r|..]
    ensures !StartsWith(t, Fence) ==> r == t
  {
    t[LeadingFenceLength(t)..]
  }

  /**
   * The match is a leading fence, present exactly when `t` opens with three
   * backticks; it takes the `json` tag whenever the tag is there, and a line
   * break right after the fence or the tag whenever there is one.
   */
  lemma LeadingFenceMatch(t: string)
    ensures StartsWith(t, Fence) ==> IsLeadingFence(t[..LeadingFenceLength(t)])
    ensures !StartsWith(t, Fence) <==> LeadingFenceLength(t) == 0
    ensures StartsWith(t, Fence + JsonTag) ==> LeadingFenceLength(t) >= |Fence + JsonTag|
    ensures StartsWith(t, Fence) ==>
      var n := LeadingFenceLength(t);
      n == |t| || t[n - 1] == '\n' || t[n] != '\n'
  {
    if StartsWith(t, Fence) {
      var n := LeadingFenceLength(t);
      if StartsWith(t[|Fence|..], JsonTag) {
        assert t[..7] == t[..3] + t[3..][..4];
        if n == 8 {
          assert t[..8] == t[..7] + [t[7]];
        }
      } else {
        if n == 4 {
          assert t[..4] == t[..3] + [t[3]];
        }
      }
    }
  }

  /** `t.replace(/```$/, '')`: without the `m` flag `$` is the end of the whole text. */
  function StripTrailingFence(t: string): (r: string)
    ensures |r| <= |t| && r == t[..|r|]
    ensures EndsWith(t, Fence) ==> t[|r|..] == Fence
    ensures !EndsWith(t, Fence) ==> r == t
  {
    if EndsWith(t, Fence) then t[..|t| - |Fence|] else t
  }

  /** The fence removal applied to the trimmed reply: only a reply opening with a fence is touched. */
  function StripFences(t: string): string {
    if StartsWith(t, Fence) then StripTrailingFence(StripLeadingFence(t)) else t
  }

  /** The text handed to the JSON parser, given the text of the reply. */
  function CleanReply(text: string): string {
    StripFences(Trim(text))
  }

  /** A reply without whitespace at its ends goes straight to the fence removal. */
  lemma CleanTrimmed(text: string)
    requires text == [] || (!IsWhiteSpace(text[0]) && !IsWhiteSpace(text[|text| - 1]))
    ensures CleanReply(text) == StripFences(text)
  {
    TrimUnpadded(text);
  }

  /** A reply that does not open with a fence is only trimmed. */
  lemma UnfencedReplyOnlyTrimmed(text: string)
    requires !StartsWith(Trim(text), Fence)
    ensures CleanReply(text) == Trim(text)
  {
  }

  /**
   * The fence removal keeps one contiguous piece of its input: at most one
   * leading fence goes (only when the text opens with one) and at most one
   * fence at the very end; everything between is untouched.
   */
  lemma StripFencesKeepsOneSlice(t: string)
    ensures exists i, j :: (
              && 0 <= i <= j <= |t| && StripFences(t) == t[i..j]
              && (t[..i] == [] || (StartsWith(t, Fence) && IsLeadingFence(t[..i])))
              && (t[j..] == [] || t[j..] == Fence))
  {
    if StartsWith(t, Fence) {
      var i := LeadingFenceLength(t);
      var j := i + |StripFences(t)|;
      assert StripFences(t) == StripTrailingFence(t[i..]);
      TrailingFenceSlice(t, i);
      LeadingFenceMatch(t);
      assert IsLeadingFence(t[..i]);
      assert 0 <= i <= j <= |t| && StripFences(t) == t[i..j];
      assert t[j..] == [] || t[j..] == Fence;
    } else {
      assert t[0..|t|] == t;
    }
  }

  /** Removing a closing fence from what follows position `i` keeps a slice of `t` followed by at most that fence. */
  lemma TrailingFenceSlice(t: string, i: nat)
    requires i <= |t|
    ensures var r := StripTrailingFence(t[i..]);
            var j := i + |r|;
            && j <= |t| && r == t[i..j]
            && (t[j..] == [] || t[j..] == Fence)
  {
    var u := t[i..];
    var r := StripTrailingFence(u);
    var j := i + |r|;
    assert t[i..j] == u[..|r|];
    assert t[j..] == u[|r|..];
  }

  /** What cleaning keeps is one contiguous piece of the trimmed reply, as `StripFencesKeepsOneSlice` describes. */
  lemma CleanKeepsOneSlice(text: string)
    ensures exists i, j :: (
              && 0 <= i <= j <= |Trim(text)| && CleanReply(text) == Trim(text)[i..j]
              && (Trim(text)[..i] == [] || (StartsWith(Trim(text), Fence) && IsLeadingFence(Trim(text)[..i])))
              && (Trim(text)[j..] == [] || Trim(text)[j..] == Fence))
  {
    StripFencesKeepsOneSlice(Trim(text));
  }

  /** Removing the `json` fence from "```json\n" + s + "```" leaves s. */
  lemma JsonFenceStripped(s: string)
    ensures StripFences("```json\n" + s + "```") == s
  {
    var text := "```json\n" + s + "```";
    assert text[..3] == Fence && text[3..][..4] == JsonTag && text[7] == '\n';
    assert LeadingFenceLength(text) == 8;
    assert StripLeadingFence(text) == s + Fence;
    assert (s + Fence)[..|s|] == s;
  }

  /** Round trip: a payload wrapped as "```json\n" + s + "```" comes back exactly. */
  lemma JsonFenceRoundTrip(s: string)
    ensures CleanReply("```json\n" + s + "```") == s
  {
    var text := "```json\n" + s + "```";
    JsonFenceStripped(s);
    assert text[0] == '`' && text[|text| - 1] == '`';
    CleanTrimmed(text);
  }

  /** Removing the plain fence from "```\n" + s + "```" leaves s. */
  lemma PlainFenceStripped(s: string)
    ensures StripFences("```\n" + s + "```") == s
  {
    var text := "```\n" + s + "```";
    assert text[..3] == Fence && text[3] == '\n';
    assert !StartsWith(text[3..], JsonTag) by {
      assert text[3..][0] == '\n';
    }
    assert LeadingFenceLength(text) == 4;
    assert StripLeadingFence(text) == s + Fence;
    assert (s + Fence)[..|s|] == s;
  }

  /** Round trip: a payload wrapped as "```\n" + s + "```" comes back exactly. */
  lemma PlainFenceRoundTrip(s: string)
    ensures CleanReply("```\n" + s + "```") == s
  {
    var text := "```\n" + s + "```";
    PlainFenceStripped(s);
    assert text[0] == '`' && text[|text| - 1] == '`';
    CleanTrimmed(text);
  }

  /** Text up to a line break is never part of a closing fence: only what follows it can lose one. */
  lemma TrailingFenceAfterLineBreak(p: string, b: string)
    requires p != [] && p[|p| - 1] == '\n'
    ensures StripTrailingFence(p + b) == p + StripTrailingFence(b)
  {
    var u := p + b;
    if |b| >= |Fence| {
      assert u[|u| - |Fence|..] == b[|b| - |Fence|..];
      if EndsWith(b, Fence) {
        assert u[..|u| - |Fence|] == p + b[..|b| - |Fence|];
      }
    } else if |u| >= |Fence| {
      assert u[|p| - 1] == '\n';
      assert u[|u| - |Fence|..][|Fence| - 1 - |b|] == '\n';
    }
  }

  /**
   * A language tag that does not begin with lowercase `json` (`JSON`, `ts`,
   * ...) is not removed: once the fence goes, the tag line is kept whole, and
   * of the rest only a closing fence goes.
   */
  lemma OtherTagKept(tag: string, body: string)
    requires tag != [] && tag[0] != '\n' && !StartsWith(tag + "\n" + body, JsonTag)
    ensures StripFences(Fence + tag + "\n" + body) == tag + "\n" + StripTrailingFence(body)
  {
    var t := Fence + tag + "\n" + body;
    var line := tag + "\n";
    assert t[..|Fence|] == Fence && t[|Fence|..] == line + body;
    assert t[|Fence|] == tag[0];
    assert LeadingFenceLength(t) == |Fence|;
    TrailingFenceAfterLineBreak(line, body);
  }

  /**
   * A tag that merely begins with `json` (`jsonc`, `json5`, ...) loses those
   * four letters and keeps the rest of its line: the optional group of the
   * pattern is not bound to a whole word.
   */
  lemma JsonPrefixedTagTruncated(rest: string, body: string)
    requires rest != [] && rest[0] != '\n'
    ensures StripFences(Fence + JsonTag + rest + "\n" + body) == rest + "\n" + StripTrailingFence(body)
  {
    var t := Fence + JsonTag + rest + "\n" + body;
    var line := rest + "\n";
    assert t[..|Fence|] == Fence && t[|Fence|..][..|JsonTag|] == JsonTag;
    assert t[|Fence| + |JsonTag|..] == line + body;
    assert t[|Fence| + |JsonTag|] == rest[0];
    assert LeadingFenceLength(t) == |Fence| + |JsonTag|;
    TrailingFenceAfterLineBreak(line, body);
  }

  /** The `jsonc` case written out: the parser is handed "c" and what follows. */
  lemma JsoncTagLeavesC()
    ensures CleanReply("```jsonc\n{}```") == "c\n{}"
  {
    var text := "```jsonc\n{}```";
    JsoncFenceStripped();
    assert text[0] == '`' && text[|text| - 1] == '`';
    CleanTrimmed(text);
  }

  /** The fence removal on "```jsonc\n{}```": the `json` part of the tag goes, the `c` stays. */
  lemma JsoncFenceStripped()
    ensures StripFences("```jsonc\n{}```") == "c\n{}"
  {
    var text := "```jsonc\n{}```";
    assert text[..3] == Fence && text[3..][..4] == JsonTag && text[7] == 'c';
    assert LeadingFenceLength(text) == 7;
    var u := text[7..];
    assert u == "c\n{}```";
    assert u[|u| - 3..] == Fence && u[..|u| - 3] == "c\n{}";
  }
}

=== FILE: schema.dfy ===
/**
 * The submission validator `chatSchema`: a five-field object schema turning
 * the posted form strings into a validated request, or into a report that
 * holds, for every field that was rejected, its list of messages.
 */
module Schema {
  import opened Wrappers
  import opened EcmaNumber
  import opened Constants

  /** The fields of a submission, in schema order. */
  datatype Field = Title | Description | Duration | Theme | Members

  const FieldOrder: seq<Field> := [Title, Description, Duration, Theme, Members]

  /** The key a field is posted under. */
  function FieldName(f: Field): string {
    match f
    case Title => "title"
    case Description => "description"
    case Duration => "duration"
    case Theme => "theme"
    case Members => "members"
  }

  /** The posted form, one string per key; a key that was not posted is absent. */
  type Submission = map<string, string>

  /** The value posted for a field, or None when the key is absent (`undefined`). */
  function Lookup(sub: Submission, f: Field): Option<string> {
    if FieldName(f) in sub then Some(sub[FieldName(f)]) else None
  }

  const TitleMinLength: nat := 5
  const TitleMaxLength: nat := 200
  const DescriptionMinLength: nat := 10
  const MinMembers: int := 1

  /** The one message the schema sets itself: a description that is too short. */
  const DescriptionTooShortMessage: string := "Required!!"

  /** The record the schema produces; `Valid` is what every field's rule guarantees. */
  datatype ValidatedRequest = ValidatedRequest(
    title: string,
    description: string,
    duration: string,
    theme: string,
    members: int)
  {
    predicate Valid() {
      && TitleMinLength <= |title| <= TitleMaxLength
      && |description| >= DescriptionMinLength
      && duration in Durations
      && theme in HackathonThemes
      && members >= MinMembers
    }
  }

  /** The error report: the messages of every rejected field. */
  type FieldErrors = map<Field, seq<string>>

  // The validation library's own default messages, in its English wording.

  function InvalidTypeMessage(expected: string, received: string): string {
    "Invalid input: expected " + expected + ", received " + received
  }

  function TooShortMessage(min: nat): string {
    "Too small: expected string to have >=" + DecimalString(min) + " characters"
  }

  function TooLongMessage(max: nat): string {
    "Too big: expected string to have <=" + DecimalString(max) + " characters"
  }

  function TooSmallNumberMessage(min: nat): string {
    "Too small: expected number to be >=" + DecimalString(min)
  }

  /** The labels quoted and separated by `|`, as the enum message lists them. */
  function QuotedLabels(labels: seq<string>): string {
    if labels == [] then ""
    else if |labels| == 1 then "\"" + labels[0] + "\""
    else "\"" + labels[0] + "\"|" + QuotedLabels(labels[1..])
  }

  function InvalidOptionMessage(labels: seq<string>): string {
    "Invalid option: expected one of " + QuotedLabels(labels)
  }

  /** `z.string().min(5).max(200)`: both length checks run and report on their own. */
  function CheckTitle(v: Option<string>): (r: Result<string, seq<string>>)
    ensures r.Success? <==> v.Some? && TitleMinLength <= |v.value| <= TitleMaxLength
    ensures r.Success? ==> r.value == v.value
    ensures r.Failure? ==> r.error != []
  {
    match v
    case None => Failure([InvalidTypeMessage("string", "undefined")])
    case Some(s) =>
      var issues := (if |s| < TitleMinLength then [TooShortMessage(TitleMinLength)] else [])
                  + (if |s| > TitleMaxLength then [TooLongMessage(TitleMaxLength)] else []);
      if issues == [] then Success(s) else Failure(issues)
  }

  /** `z.string().min(10, 'Required!!')`. */
  function CheckDescription(v: Option<string>): (r: Result<string, seq<string>>)
    ensures r.Success? <==> v.Some? && |v.value| >= DescriptionMinLength
    ensures r.Success? ==> r.value == v.value
    ensures v.Some? && |v.value| < DescriptionMinLength ==> r == Failure([DescriptionTooShortMessage])
    ensures v.None? ==> r.Failure? && r.error != [DescriptionTooShortMessage]
  {
    match v
    case None => Failure([InvalidTypeMessage("string", "undefined")])
    case Some(s) =>
      if |s| < DescriptionMinLength then Failure([DescriptionTooShortMessage]) else Success(s)
  }

  /** `z.enum(labels)`: the value must be one of the labels, character for character. */
  function CheckLabel(v: Option<string>, labels: seq<string>): (r: Result<string, seq<string>>)
    ensures r.Success? <==> v.Some? && v.value in labels
    ensures r.Success? ==> r.value == v.value
    ensures r.Failure? ==> r.error != []
  {
    if v.Some? && v.value in labels then Success(v.value)
    else Failure([InvalidOptionMessage(labels)])
  }

  /**
   * `z.coerce.number().min(1)`: the value is first converted with `Number`
   * (an absent value gives `NaN`), then must be a number of at least 1; the
   * result is the converted number.
   */
  function CheckMembers(v: Option<string>): (r: Result<int, seq<string>>)
    ensures r.Success? <==> v.Some? && StringToInteger(v.value).Some? && StringToInteger(v.value).value >= MinMembers
    ensures r.Success? ==> Some(r.value) == StringToInteger(v.value)
    ensures r.Failure? ==> r.error != []
  {
    var n := if v.Some? then StringToInteger(v.value) else None;
    match n
    case None => Failure([InvalidTypeMessage("number", "NaN")])
    case Some(x) => if x < MinMembers then Failure([TooSmallNumberMessage(1)]) else Success(x)
  }

  /** Every field. */
  const FieldSet: set<Field> := {Title, Description, Duration, Theme, Members}

  /** The messages of a check, empty when it passed. */
  function MessagesOf<T>(r: Result<T, seq<string>>): seq<string> {
    if r.Failure? then r.error else []
  }

  /** The outcome of every field's check; each check runs whatever the others found. */
  datatype FieldChecks = FieldChecks(
    title: Result<string, seq<string>>,
    description: Result<string, seq<string>>,
    duration: Result<string, seq<string>>,
    theme: Result<string, seq<string>>,
    members: Result<int, seq<string>>)
  {
    predicate Passed(f: Field) {
      match f
      case Title => title.Success?
      case Description => description.Success?
      case Duration => duration.Success?
      case Theme => theme.Success?
      case Members => members.Success?
    }

    function Messages(f: Field): seq<string> {
      match f
      case Title => MessagesOf(title)
      case Description => MessagesOf(description)
      case Duration => MessagesOf(duration)
      case Theme => MessagesOf(theme)
      case Members => MessagesOf(members)
    }

    predicate AllPassed() {
      title.Success? && description.Success? && duration.Success? && theme.Success? && members.Success?
    }

    /** The error report: one entry per failed check. */
    function Report(): FieldErrors {
      map f | f in FieldSet && !Passed(f) :: Messages(f)
    }

    /** The report handed back: none at all when every check passed. */
    function Errors(): FieldErrors {
      if AllPassed() then map[] else Report()
    }
  }

  /** The report has an entry for exactly the failed checks, holding their messages. */
  lemma ReportEntries(c: FieldChecks)
    ensures c.AllPassed() <==> forall f :: c.Passed(f)
    ensures forall f :: f in c.Report() <==> !c.Passed(f)
    ensures forall f :: f in c.Report() ==> c.Report()[f] == c.Messages(f)
  {
    forall f ensures f in c.Report() <==> !c.Passed(f)
      ensures f in c.Report() ==> c.Report()[f] == c.Messages(f)
    {
      match f
      case Title =>
      case Description =>
      case Duration =>
      case Theme =>
      case Members =>
    }
    if !c.AllPassed() {
      assert !c.Passed(Title) || !c.Passed(Description) || !c.Passed(Duration)
          || !c.Passed(Theme) || !c.Passed(Members);
    } else {
      forall f ensures c.Passed(f) {
        match f
        case Title =>
        case Description =>
        case Duration =>
        case Theme =>
        case Members =>
      }
    }
  }

  /** The report's entry for one field: present exactly when its check failed, holding its messages. */
  lemma ReportEntry(c: FieldChecks, f: Field)
    ensures f in c.Report() <==> !c.Passed(f)
    ensures f in c.Report() ==> c.Report()[f] == c.Messages(f)
  {
    assert f in FieldSet;
  }

  /** When every check passed, so did each one. */
  lemma AllPassedEach(c: FieldChecks, f: Field)
    requires c.AllPassed()
    ensures c.Passed(f)
  {
  }

  /** A field has an entry in the report handed back exactly when its check failed, holding that check's messages. */
  lemma ErrorsEntry(c: FieldChecks, f: Field)
    ensures f in c.Errors() <==> !c.Passed(f)
    ensures f in c.Errors() ==> c.Errors()[f] == c.Messages(f)
  {
    if c.AllPassed() {
      AllPassedEach(c, f);
    } else {
      ReportEntry(c, f);
    }
  }

  /** When some check failed, the report handed back is the compiled one, and it has an entry. */
  lemma FailedReportNonEmpty(c: FieldChecks)
    requires !c.AllPassed()
    ensures c.Errors() == c.Report() && c.Report() != map[]
  {
    ReportEntries(c);
    var f :| !c.Passed(f);
    assert f in c.Report();
  }

  /** When one check alone failed, the report holds that field's messages and nothing else. */
  lemma OnlyFailureReported(c: FieldChecks, f: Field)
    requires !c.Passed(f)
    requires forall g :: g != f ==> c.Passed(g)
    ensures !c.AllPassed() && c.Report() == map[f := c.Messages(f)]
  {
    forall g ensures g in c.Report() <==> g == f {
      ReportEntry(c, g);
    }
    ReportEntry(c, f);
  }

  /** The rule of each field, stated on the posted value alone. */
  predicate Accepted(sub: Submission, f: Field) {
    var v := Lookup(sub, f);
    v.Some? &&
    match f
    case Title => TitleMinLength <= |v.value| <= TitleMaxLength
    case Description => |v.value| >= DescriptionMinLength
    case Duration => v.value in Durations
    case Theme => v.value in HackathonThemes
    case Members => StringToInteger(v.value).Some? && StringToInteger(v.value).value >= MinMembers
  }

  /** Runs every field's check on the posted values. */
  function RunChecks(sub: Submission): FieldChecks {
    FieldChecks(
      CheckTitle(Lookup(sub, Title)),
      CheckDescription(Lookup(sub, Description)),
      CheckLabel(Lookup(sub, Duration), Durations),
      CheckLabel(Lookup(sub, Theme), HackathonThemes),
      CheckMembers(Lookup(sub, Members)))
  }

  /**
   * A check passes exactly when its field's rule accepts the posted value,
   * a failed check always says something, and a description that was posted
   * but is too short gets the schema's own message.
   */
  lemma CheckAgrees(sub: Submission, f: Field)
    ensures RunChecks(sub).Passed(f) <==> Accepted(sub, f)
    ensures !RunChecks(sub).Passed(f) ==> RunChecks(sub).Messages(f) != []
    ensures f == Description && Lookup(sub, f).Some? && !RunChecks(sub).Passed(f) ==>
      RunChecks(sub).Messages(f) == [DescriptionTooShortMessage]
  {
    match f
    case Title =>
    case Description =>
    case Duration =>
    case Theme =>
    case Members =>
  }

  /** Every field's check agrees with its rule. */
  lemma ChecksAgree(sub: Submission)
    ensures forall f :: RunChecks(sub).Passed(f) <==> Accepted(sub, f)
    ensures forall f :: !RunChecks(sub).Passed(f) ==> RunChecks(sub).Messages(f) != []
    ensures Lookup(sub, Description).Some? && !RunChecks(sub).Passed(Description) ==>
      RunChecks(sub).Messages(Description) == [DescriptionTooShortMessage]
  {
    forall f ensures RunChecks(sub).Passed(f) <==> Accepted(sub, f)
      ensures !RunChecks(sub).Passed(f) ==> RunChecks(sub).Messages(f) != []
    {
      CheckAgrees(sub, f);
    }
    CheckAgrees(sub, Description);
  }

  /**
   * `chatSchema.safeParse(data)`: every field is checked, none stops the
   * others; the request is valid exactly when every field is, and otherwise
   * the report holds an entry for exactly the rejected fields.
   */
  function Validate(sub: Submission): (r: Result<ValidatedRequest, FieldErrors>)
    ensures r.Success? <==> forall f :: Accepted(sub, f)
    ensures r.Success? ==> r.value.Valid()
    ensures r.Success? ==>
      && Lookup(sub, Title) == Some(r.value.title)
      && Lookup(sub, Description) == Some(r.value.description)
      && Lookup(sub, Duration) == Some(r.value.duration)
      && Lookup(sub, Theme) == Some(r.value.theme)
      && Lookup(sub, Members).Some? && StringToInteger(Lookup(sub, Members).value) == Some(r.value.members)
    ensures r.Failure? ==> forall f :: f in r.error <==> !Accepted(sub, f)
    ensures r.Failure? ==> forall f :: f in r.error ==> r.error[f] != []
    ensures r.Failure? && Description in r.error && Lookup(sub, Description).Some? ==>
      r.error[Description] == [DescriptionTooShortMessage]
  {
    var c := RunChecks(sub);
    ReportEntries(c);
    ChecksAgree(sub);
    if c.AllPassed() then
      Success(ValidatedRequest(c.title.value, c.description.value, c.duration.value, c.theme.value, c.members.value))
    else
      Failure(c.Report())
  }

  /** The report a submission yields: one entry per failed check, none when every check passes. */
  function Errors(sub: Submission): FieldErrors {
    RunChecks(sub).Errors()
  }

  /** The validator fails exactly when the report has an entry, and then it hands back that report. */
  lemma ValidateReportsErrors(sub: Submission)
    ensures Validate(sub).Success? <==> Errors(sub) == map[]
    ensures Validate(sub).Failure? ==> Validate(sub).error == Errors(sub)
  {
    var c := RunChecks(sub);
    if !c.AllPassed() {
      assert Validate(sub) == Failure(c.Report());
      FailedReportNonEmpty(c);
    }
  }

  /** Only the five field keys matter: submissions agreeing on them validate alike. */
  lemma ValidateReadsOnlyFields(sub1: Submission, sub2: Submission)
    requires forall f :: Lookup(sub1, f) == Lookup(sub2, f)
    ensures Validate(sub1) == Validate(sub2)
  {
    assert Lookup(sub1, Title) == Lookup(sub2, Title);
    assert Lookup(sub1, Description) == Lookup(sub2, Description);
    assert Lookup(sub1, Duration) == Lookup(sub2, Duration);
    assert Lookup(sub1, Theme) == Lookup(sub2, Theme);
    assert Lookup(sub1, Members) == Lookup(sub2, Members);
  }

  /** A key the schema does not know is stripped: adding one changes nothing. */
  lemma UnknownKeyIgnored(sub: Submission, key: string, value: string)
    requires forall f :: key != FieldName(f)
    ensures Validate(sub[key := value]) == Validate(sub)
  {
    ValidateReadsOnlyFields(sub[key := value], sub);
  }

  /** A field's check sees that field's value alone. */
  lemma SameValueSameCheck(sub1: Submission, sub2: Submission, f: Field)
    requires Lookup(sub1, f) == Lookup(sub2, f)
    ensures RunChecks(sub1).Passed(f) == RunChecks(sub2).Passed(f)
    ensures RunChecks(sub1).Messages(f) == RunChecks(sub2).Messages(f)
  {
    match f
    case Title =>
    case Description =>
    case Duration =>
    case Theme =>
    case Members =>
  }

  /**
   * Errors are collected field by field: whether a field has an entry, and
   * what it says, depends on that field's posted value alone.
   */
  lemma ErrorEntryIsolated(sub1: Submission, sub2: Submission, f: Field)
    requires Lookup(sub1, f) == Lookup(sub2, f)
    ensures f in Errors(sub1) <==> f in Errors(sub2)
    ensures f in Errors(sub1) ==> Errors(sub1)[f] == Errors(sub2)[f]
  {
    SameValueSameCheck(sub1, sub2, f);
    ErrorsEntry(RunChecks(sub1), f);
    ErrorsEntry(RunChecks(sub2), f);
  }

  /** Every field is required: a submission missing any key is rejected, with an entry for that key. */
  lemma MissingFieldRejected(sub: Submission, f: Field)
    requires FieldName(f) !in sub
    ensures Validate(sub).Failure? && f in Validate(sub).error
  {
  }

  /** The example submission used below: every field acceptable, the team size "4". */
  function ExampleSubmission(description: string): Submission {
    map["title" := "AI for Good Hackathon",
        "description" := description,
        "duration" := "48 hours",
        "theme" := "HealthTech",
        "members" := "4"]
  }

  /** Apart from the description, every field of the example is acceptable. */
  lemma ExampleFieldsAccepted(description: string)
    ensures forall f :: f != Description ==> Accepted(ExampleSubmission(description), f)
    ensures Lookup(ExampleSubmission(description), Members) == Some("4")
    ensures StringToInteger("4") == Some(4)
  {
    var sub := ExampleSubmission(description);
    assert Lookup(sub, Title) == Some("AI for Good Hackathon");
    assert Lookup(sub, Duration) == Some("48 hours");
    assert Lookup(sub, Theme) == Some("HealthTech");
    assert Lookup(sub, Members) == Some("4");
    assert HackathonThemes[3] == "HealthTech";
    assert Durations[2] == "48 hours";
    DecimalRoundTrip(4);
    assert DecimalString(4) == "4";
    forall f | f != Description ensures Accepted(sub, f) {
      match f
      case Title =>
      case Description =>
      case Duration =>
      case Theme =>
      case Members =>
    }
  }

  /** A form whose every field passes validates to the record of its values. */
  lemma AcceptedFormValidates(sub: Submission, r: ValidatedRequest)
    requires forall f :: Accepted(sub, f)
    requires Lookup(sub, Title) == Some(r.title) && Lookup(sub, Description) == Some(r.description)
    requires Lookup(sub, Duration) == Some(r.duration) && Lookup(sub, Theme) == Some(r.theme)
    requires Lookup(sub, Members).Some? && StringToInteger(Lookup(sub, Members).value) == Some(r.members)
    ensures Validate(sub) == Success(r)
  {
  }

  /** The sample form with a long enough description validates to the record its values spell out. */
  lemma ExampleSubmissionAccepted(description: string)
    requires |description| >= DescriptionMinLength
    ensures Validate(ExampleSubmission(description))
         == Success(ValidatedRequest("AI for Good Hackathon", description, "48 hours", "HealthTech", 4))
  {
    var sub := ExampleSubmission(description);
    ExampleFieldsAccepted(description);
    assert Lookup(sub, Description) == Some(description);
    assert Accepted(sub, Description);
    assert Lookup(sub, Title) == Some("AI for Good Hackathon");
    assert Lookup(sub, Duration) == Some("48 hours");
    assert Lookup(sub, Theme) == Some("HealthTech");
    AcceptedFormValidates(sub, ValidatedRequest("AI for Good Hackathon", description, "48 hours", "HealthTech", 4));
  }

  /** A description that is too short on an otherwise acceptable form is the only thing reported, as "Required!!". */
  lemma OnlyShortDescriptionReported(sub: Submission)
    requires forall f :: f != Description ==> Accepted(sub, f)
    requires Lookup(sub, Description).Some? && |Lookup(sub, Description).value| < DescriptionMinLength
    ensures Validate(sub) == Failure(map[Description := [DescriptionTooShortMessage]])
  {
    var c := RunChecks(sub);
    forall f | f != Description ensures c.Passed(f) {
      CheckAgrees(sub, f);
    }
    CheckAgrees(sub, Description);
    OnlyFailureReported(c, Description);
    assert Validate(sub) == Failure(c.Report());
  }

  /** Only the description is reported when only the description is too short. */
  lemma ShortDescriptionReported(description: string)
    requires |description| < DescriptionMinLength
    ensures Validate(ExampleSubmission(description)) == Failure(map[Description := [DescriptionTooShortMessage]])
  {
    ExampleFieldsAccepted(description);
    assert Lookup(ExampleSubmission(description), Description) == Some(description);
    OnlyShortDescriptionReported(ExampleSubmission(description));
  }

  /** The team size is held as the number it converts to: "3" is 3. */
  lemma MembersConverted(sub: Submission)
    requires forall f :: f != Members ==> Accepted(sub, f)
    requires Lookup(sub, Members) == Some("3")
    ensures Validate(sub).Success? && Validate(sub).value.members == 3
  {
    DecimalRoundTrip(3);
    assert DecimalString(3) == "3";
    assert Accepted(sub, Members);
    assert forall f :: Accepted(sub, f);
  }

  /** An empty team size converts to 0 and is rejected as too small. */
  lemma EmptyMembersRejected(sub: Submission)
    requires Lookup(sub, Members) == Some("")
    ensures Validate(sub).Failure? && Members in Validate(sub).error
    ensures Errors(sub)[Members] == [TooSmallNumberMessage(1)]
  {
    BlankIsZero("");
  }
}

=== FILE: template_literal.dfy ===
/**
 * ECMAScript template literals: `parts[0]${values[0]}parts[1]...${values[n-1]}parts[n]`
 * evaluates to the literal text segments with each substitution's string
 * value spliced in between.
 */
module TemplateLiteral {

  /** The value of a template literal with `|values|` substitutions. */
  function Interpolate(parts: seq<string>, values: seq<string>): string
    requires |parts| == |values| + 1
  {
    if values == [] then parts[0]
    else parts[0] + values[0] + Interpolate(parts[1..], values[1..])
  }

  /** The text produced before segment `k`: the first `k` segments with their substitutions. */
  function Preceding(parts: seq<string>, values: seq<string>, k: nat): string
    requires k <= |values| && k < |parts|
  {
    if k == 0 then [] else parts[0] + values[0] + Preceding(parts[1..], values[1..], k - 1)
  }

  /** Where the `k`-th substitution starts in the value of the template. */
  function SlotOffset(parts: seq<string>, values: seq<string>, k: nat): nat
    requires k <= |values| && k < |parts|
  {
    |Preceding(parts, values, k)| + |parts[k]|
  }

  /** `sub` stands in `s` verbatim from position `i` on. */
  predicate OccursAt(s: string, sub: string, i: int) {
    0 <= i && i + |sub| <= |s| && s[i..i + |sub|] == sub
  }

  /** The template splits around any of its substitutions. */
  lemma {:induction false} InterpolateSplit(parts: seq<string>, values: seq<string>, k: nat)
    requires |parts| == |values| + 1 && k < |values|
    ensures Interpolate(parts, values)
         == Preceding(parts, values, k) + parts[k] + values[k] + Interpolate(parts[k + 1..], values[k + 1..])
  {
    if k > 0 {
      InterpolateSplit(parts[1..], values[1..], k - 1);
      assert parts[1..][k - 1] == parts[k] && values[1..][k - 1] == values[k];
      assert parts[1..][k..] == parts[k + 1..] && values[1..][k..] == values[k + 1..];
    }
  }

  /** The text before segment `k + 1` extends the text before segment `k`. */
  lemma {:induction false} PrecedingStep(parts: seq<string>, values: seq<string>, k: nat)
    requires k < |values| && k + 1 < |parts|
    ensures Preceding(parts, values, k + 1) == Preceding(parts, values, k) + parts[k] + values[k]
  {
    if k > 0 {
      PrecedingStep(parts[1..], values[1..], k - 1);
    }
  }

  /** Substitution `k` stands right after its literal segment in the value of the template. */
  lemma SlotAt(parts: seq<string>, values: seq<string>, k: nat)
    requires |parts| == |values| + 1 && k < |values|
    ensures OccursAt(Interpolate(parts, values), values[k], SlotOffset(parts, values, k))
    ensures OccursAt(Interpolate(parts, values), parts[k], SlotOffset(parts, values, k) - |parts[k]|)
  {
    var s := Interpolate(parts, values);
    InterpolateSplit(parts, values, k);
    var pre := Preceding(parts, values, k);
    var post := Interpolate(parts[k + 1..], values[k + 1..]);
    assert s == pre + parts[k] + values[k] + post;
    var o := SlotOffset(parts, values, k);
    assert s[o..o + |values[k]|] == values[k];
    assert s[o - |parts[k]|..o] == parts[k];
  }

  /**
   * Every substitution appears verbatim in the value of the template, right
   * after its literal segment, and the substitutions appear in their order.
   */
  lemma InterpolateSlots(parts: seq<string>, values: seq<string>)
    requires |parts| == |values| + 1
    ensures forall k :: 0 <= k < |values| ==>
      && OccursAt(Interpolate(parts, values), values[k], SlotOffset(parts, values, k))
      && OccursAt(Interpolate(parts, values), parts[k], SlotOffset(parts, values, k) - |parts[k]|)
    ensures forall k :: 0 <= k < |values| - 1 ==>
      SlotOffset(parts, values, k) + |values[k]| + |parts[k + 1]| == SlotOffset(parts, values, k + 1)
  {
    var s := Interpolate(parts, values);
    forall k | 0 <= k < |values|
      ensures OccursAt(s, values[k], SlotOffset(parts, values, k))
      ensures OccursAt(s, parts[k], SlotOffset(parts, values, k) - |parts[k]|)
    {
      SlotAt(parts, values, k);
    }
    forall k | 0 <= k < |values| - 1
      ensures SlotOffset(parts, values, k) + |values[k]| + |parts[k + 1]| == SlotOffset(parts, values, k + 1)
    {
      PrecedingStep(parts, values, k);
    }
  }

  /** The last literal segment is appended after everything else: the rest does not depend on it. */
  lemma {:induction false} InterpolateLastPart(parts: seq<string>, values: seq<string>)
    requires |parts| == |values| + 1
    ensures Interpolate(parts, values) == Interpolate(parts[..|values|] + [""], values) + parts[|values|]
  {
    var q := parts[..|values|] + [""];
    if values == [] {
      assert q == [""];
    } else {
      InterpolateLastPart(parts[1..], values[1..]);
      assert q[0] == parts[0];
      assert q[1..] == parts[1..][..|values| - 1] + [""];
    }
  }

  /**
   * When the literal segment before substitution `k` ends with `end`, that
   * text stands right before the substitution.
   */
  lemma SlotAfterSuffix(parts: seq<string>, values: seq<string>, k: nat, end: string)
    requires |parts| == |values| + 1 && k < |values|
    requires |end| <= |parts[k]| && parts[k][|parts[k]| - |end|..] == end
    ensures OccursAt(Interpolate(parts, values), end, SlotOffset(parts, values, k) - |end|)
  {
    var s := Interpolate(parts, values);
    var o := SlotOffset(parts, values, k);
    InterpolateSplit(parts, values, k);
    var pre := Preceding(parts, values, k);
    assert s == pre + parts[k] + values[k] + Interpolate(parts[k + 1..], values[k + 1..]);
    assert s[o - |parts[k]|..o] == parts[k];
    assert s[o - |end|..o] == s[o - |parts[k]|..o][|parts[k]| - |end|..];
  }
}

=== FILE: workshop_chat_action.dfy ===
/**
 * The `chat` form action as the third workshop starts it: the form is
 * validated and the prompt is built, but the call to the generator is still
 * commented out, so a valid form gets a placeholder answer. The body after
 * validation runs inside a `try` whose `catch` turns any exception into a
 * server failure.
 */
module WorkshopChatAction {
  import opened Wrappers
  import opened Schema
  import opened Prompt
  import opened Outcome

  /** The `try { ... } catch { return fail(500, ...) }` around a step that may throw. */
  function Guard<J>(attempt: ActionResult<J>): (o: ActionResult<J>)
    ensures attempt.Thrown? ==> o == ServerFailure()
    ensures !attempt.Thrown? ==> o == attempt
    ensures !o.Thrown?
  {
    if attempt.Thrown? then ServerFailure() else attempt
  }

  /** What the `try` block does with the prompt for now: answer with the placeholder. */
  function Placeholder<J>(prompt: string): ActionResult<J> {
    Returned(NoData())
  }

  /** The action: an invalid form is answered with its report, a valid one with the placeholder. */
  function Chat<J>(sub: Submission): (o: ActionResult<J>)
    ensures Validate(sub).Failure? ==> o == ValidationFailure(Validate(sub).error)
    ensures Validate(sub).Success? ==> o == Returned(NoData())
  {
    match Validate(sub)
    case Failure(errors) => ValidationFailure(errors)
    case Success(r) => Guard(Placeholder(WorkshopPrompt(r)))
  }

  /** An invalid form gets `fail(400)` with a non-empty report and no response. */
  lemma InvalidFormRejected<J>(sub: Submission)
    requires exists f :: !Accepted(sub, f)
    ensures Chat<J>(sub) == ValidationFailure(Errors(sub))
    ensures Chat<J>(sub).data.errors.value != map[]
  {
    var f :| !Accepted(sub, f);
    ValidateReportsErrors(sub);
    assert f in Validate(sub).error;
  }

  /** A valid form gets the placeholder `{ success: false, errors: null, response: null }`. */
  lemma ValidFormGetsPlaceholder<J>(sub: Submission)
    requires forall f :: Accepted(sub, f)
    ensures Chat<J>(sub) == Returned(NoData())
  {
  }

  /** No submission makes this action report success, and none makes it throw. */
  lemma NeverSucceeds<J>(sub: Submission)
    ensures !Succeeded(Chat<J>(sub))
    ensures !Chat<J>(sub).Thrown?
  {
  }
}

=== FILE: wrappers.dfy ===
/** Option and Result, the failure-carrying values used throughout the model. */
module Wrappers {

  datatype Option<+T> = None | Some(value: T)

  datatype Result<+R, +E> = Success(value: R) | Failure(error: E)
}
